=== FILE: README.md ===
# Zabbix-to-Telegram alert formatter, in Dafny

This project models the formatting step of `telega.py`, a small notifier that
Zabbix calls with a Telegram recipient id, an alert subject and an alert
message. The notifier reads two labelled fields out of the message text,
`Trigger status:` and `Trigger severity:`. It picks an emoji from a fixed
six-entry severity table. It then builds the `sendMessage` payload
`{chat_id, text}`. Every step is a pure function here, and the properties are
proved about those functions.

- `wrappers.dfy` (module `Wrappers`): an `Option` type for "found / not found".
- `label_scan.dfy` (module `LabelScan`): a hand-written scanner that behaves
  like the multi-line search `^Label:\s(.+)$` followed by `rstrip('\r')`.
  `Captures` is the declarative reading of one match. `MatchAt`, `FindFrom`,
  `Search` and `Extract` compute it. Their contracts tie the computed result to
  `Captures`: the value is the leftmost match, and nothing is found only when
  no line matches.
- `decimal.dfy` (module `Decimal`): `str(int)` for the `chat_id`. It comes
  with an independent reader, `ParseInt`, and a proved round trip.
- `notifier.dfy` (module `Notifier`): the emoji table, the branch taken by the
  emoji selection (`Classification`), the prefix, and the payload.

How the pattern is read:
- `^` holds at position 0 and right after each `'\n'`.
- The label must follow literally, then exactly one whitespace character.
- `\s` (`LabelScan.IsSpace`) is Python's whitespace set for text, so it includes `'\n'` and `'\r'`.
  As a result, `"Trigger status:\nOK"` yields `"OK"`.
- `.+` is greedy and stops at `'\n'`. The capture is the rest of the line and
  must be non-empty. A label followed by a single space and then the end of the
  line therefore does not match on that line.
- The first line start that matches wins.

Behaviours of the code worth noting, all kept by the model:
- Only the first line that matches the status pattern counts (telega.py:51).
  A labelled line with an empty value is not a match and is skipped. A later
  `Trigger status: OK` line does not make the status OK.
- When the status is not `OK`, a severity value of `OK` is still a table key,
  so it selects the OK glyph (telega.py:58-63).
- A status line whose value is only carriage returns (`"Trigger status: \r"`)
  still counts as found (telega.py:52-53). Its stripped value `""` is not `OK`,
  so the severity line is consulted.

In the source text the glyphs appear as mis-decoded UTF-8. The model uses the
decoded characters: U+2705, U+2757, U+2139, U+26A0, U+274C, and U+2620 U+1F198.
Only the facts that they are non-empty and pairwise distinct are used.

## Model

| member | source | states |
|---|---|---|
| LabelScan.LineEnd | telega.py:32-33 | where greedy `.+` stops: the first `'\n'` at or after the start, or the end of the text, with no `'\n'` before it |
| LabelScan.MatchAt | telega.py:32-33 | the pattern anchored at one position yields a capture exactly when `Captures` holds there, and that capture is the only one possible |
| LabelScan.FindFrom | telega.py:51 | scanning positions left to right returns the first position that matches, and none before it match; nothing is returned only when no later position matches |
| LabelScan.Search | telega.py:51 | `re.search` returns the capture of the leftmost matching line; it finds nothing exactly when no position matches the pattern |
| LabelScan.StripTrailingCR | telega.py:53 | `rstrip('\r')`: the result is a prefix of the input, does not end in `'\r'`, and only `'\r'` characters were removed |
| LabelScan.StripTrailingCRUnique | telega.py:53 | those three properties determine the stripped string uniquely |
| LabelScan.Extract | telega.py:51-53 | the extracted value contains no `'\n'`, does not end in `'\r'`, and is the stripped capture of the first matching line; it is absent exactly when no line matches |
| LabelScan.ExtractOfFirstCapture | telega.py:58-60 | conversely, the first match determines the extracted value: it is that capture with trailing `'\r'` stripped |
| LabelScan.FirstCaptureUnique | telega.py:32-33 | at most one position and one capture qualify as the first match |
| LabelScan.SearchIgnoresLaterText | telega.py:51 | once a complete line of the text carries the field, any text appended after it leaves the search result unchanged |
| LabelScan.NewlineAsSeparatorExample | telega.py:32 | `\s` may be `'\n'`, so `"Trigger status:\nOK"` yields `"OK"` |
| LabelScan.LeftmostLineExample | telega.py:51 | with two status lines, the first one's value is taken |
| LabelScan.EmptyValueSkippedExample | telega.py:32 | a label followed by one space and the end of the line does not match; the next matching line is used |
| Decimal.NatToDecimal | telega.py:70 | a natural number renders as non-empty digits with no leading zero, and zero renders as `"0"` |
| Decimal.IntToDecimal | telega.py:70 | an integer renders in canonical form: a leading `'-'` exactly when it is negative, then digits with no leading zero, and zero as `"0"` |
| Decimal.CanonicalIsRendering | telega.py:70 | every canonical string is the rendering of the integer it reads back to, so canonical form plus read-back value pin the rendering down |
| Decimal.IntToDecimalRoundTrip | telega.py:45 | reading back the rendered `chat_id` gives the integer id parsed from the command line |
| Decimal.IntToDecimalInjective | telega.py:70 | distinct recipient ids give distinct `chat_id` strings |
| Decimal.DecimalExample | telega.py:70 | the id 12345 renders as `"12345"` |
| Notifier.EmojiMapShape | telega.py:35-42 | the table has exactly the six keys OK, Average, Information, Warning, High and Disaster, each with a non-empty glyph of its own |
| Notifier.Classify | telega.py:50-69 | the selection is "status absent" exactly when no status is extracted and "status OK" exactly when the status value is `"OK"`; a known severity is a table key and an unknown one is not |
| Notifier.PrefixOf | telega.py:50-69 | the prefix is either empty or one table glyph followed by a space, and it is empty exactly in the branches that log a warning |
| Notifier.EmojiPrefix | telega.py:50-63 | the emoji prefix of any message is `""` or `glyph + " "` for some table key |
| Notifier.Format | telega.py:70 | `chat_id` is the canonical decimal rendering of the recipient id and reads back as that id; the text is the prefix selected for the message (a well-formed one), then the subject, then `"\n\n"`, then the message verbatim |
| Notifier.StatusAbsentNoPrefix | telega.py:50-52 | with no status line at all, the branch is "status absent" and the prefix is empty |
| Notifier.StatusDecidesAlone | telega.py:52-57 | when the status is absent or `"OK"`, the severity line plays no part: messages with the same status value get the same prefix |
| Notifier.StatusOkPrefix | telega.py:53-56 | when the first status line's stripped value is `"OK"`, the prefix is the OK glyph and a space, whatever the severity line says |
| Notifier.KnownSeverityPrefix | telega.py:58-63 | when the status is not OK and the first severity line's stripped value is a table key, the prefix is that key's glyph and a space |
| Notifier.SeverityAbsentNoPrefix | telega.py:58-67 | when the status is not OK and no line carries a severity, the prefix is empty (a warning branch) |
| Notifier.UnknownSeverityNoPrefix | telega.py:58-65 | when the status is not OK and the first severity value is not a table key, the prefix is empty (a warning branch) |
| Notifier.OkAlertExample | telega.py:50-70 | id 12345, subject `Test` and message `Trigger status: OK\r\nAll good` give `chat_id` `"12345"` and text `<OK glyph> Test\n\n` followed by the message, `'\r'` included |

## Left out

- Command-line parsing (telega.py:44-48): the model takes the already parsed integer id, subject and message as inputs. The usage-error exit and the forms Python's `int()` accepts (`+5`, surrounding blanks, `1_000`) are not modelled. `Decimal.ParseInt` also reads leading zeros and `"-0"`; `Decimal.Canonical` is the set of strings `str(int)` produces.
- Logging (telega.py:19-28 and every `logger` call): this is a file side effect. `Classification.LogsWarning` records which branches log a warning. The messages themselves and the debug lines are not modelled.
- The HTTP POST, proxies, token URL and exception handling (telega.py:30, 71-76): network I/O through a foreign library. The model stops at the payload.
- The configuration import (telega.py:17): external values that only the left-out parts use.
- Messages holding lone surrogates (U+D800-U+DFFF) cannot be represented: Dafny's `char` is a Unicode scalar value, while Python can place such characters in `sys.argv` when it decodes non-UTF-8 bytes with `surrogateescape`. These characters are neither whitespace nor `'\n'`, so the scan would treat them like any other value character.
- `\s` is modelled by `LabelScan.IsSpace` as the fixed set of characters for which Python's `str.isspace()` holds. This is the set the regular-expression engine uses for text patterns.

=== FILE: decimal.dfy ===
/**
 * Decimal rendering of the recipient id, as Python's `f"{n}"` does it for an
 * `int`: digits without leading zeros, a leading '-' for negative values.
 * `ParseInt` is an independent reader of such strings; the two round-trip.
 */
module Decimal {
  import opened Wrappers

  predicate IsDigit(c: char) {
    '0' <= c <= '9'
  }

  predicate AllDigits(s: string) {
    forall m :: 0 <= m < |s| ==> IsDigit(s[m])
  }

  /** Non-empty digits with no leading zero, except for "0" itself. */
  predicate CanonicalDigits(s: string) {
    |s| > 0 && AllDigits(s) && (s[0] == '0' ==> |s| == 1)
  }

  /** The strings `str(n)` can produce: canonical digits, optionally after a '-' that is not followed by "0". */
  predicate Canonical(s: string) {
    if |s| > 0 && s[0] == '-' then CanonicalDigits(s[1..]) && s[1] != '0' else CanonicalDigits(s)
  }

  function DigitChar(d: nat): (c: char)
    requires d < 10
    ensures IsDigit(c) && (c as int) - ('0' as int) == d
  {
    (('0' as int) + d) as char
  }

  /** Canonical decimal form of a natural number: non-empty digits, no leading zero. */
  function NatToDecimal(n: nat): (r: string)
    ensures |r| > 0 && AllDigits(r)
    ensures r[0] == '0' <==> n == 0
    ensures n == 0 ==> r == "0"
    decreases n
  {
    if n < 10 then [DigitChar(n)] else NatToDecimal(n / 10) + [DigitChar(n % 10)]
  }

  /** `str(n)` for a Python `int`. */
  function IntToDecimal(n: int): (r: string)
    ensures Canonical(r)
    ensures r[0] == '-' <==> n < 0
    ensures n < 0 ==> |r| > 1 && AllDigits(r[1..]) && r[1] != '0'
    ensures n >= 0 ==> AllDigits(r)
    ensures n > 0 ==> r[0] != '0'
    ensures n == 0 ==> r == "0"
  {
    if n < 0 then "-" + NatToDecimal(-n) else NatToDecimal(n)
  }

  /** The value of a string of decimal digits, most significant first. */
  function DigitsValue(s: string): nat
    requires AllDigits(s)
  {
    if s == [] then 0 else DigitsValue(s[..|s| - 1]) * 10 + ((s[|s| - 1] as int) - ('0' as int))
  }

  /** Reads an optional '-' followed by at least one digit; anything else is rejected. */
  function ParseInt(s: string): (r: Option<int>)
    ensures r.Some? ==> |s| > 0
    ensures r.Some? && r.value < 0 ==> s[0] == '-'
  {
    if |s| > 1 && s[0] == '-' && AllDigits(s[1..]) then Some(0 - DigitsValue(s[1..]) as int)
    else if |s| > 0 && AllDigits(s) then Some(DigitsValue(s))
    else None
  }

  lemma {:induction false} NatToDecimalRoundTrip(n: nat)
    ensures DigitsValue(NatToDecimal(n)) == n
    decreases n
  {
    if n >= 10 {
      var r := NatToDecimal(n);
      assert r[..|r| - 1] == NatToDecimal(n / 10);
      NatToDecimalRoundTrip(n / 10);
    }
  }

  /** Reading back the rendered id gives the id. */
  lemma IntToDecimalRoundTrip(n: int)
    ensures ParseInt(IntToDecimal(n)) == Some(n)
  {
    if n < 0 {
      assert IntToDecimal(n)[1..] == NatToDecimal(-n);
      NatToDecimalRoundTrip(-n);
    } else {
      NatToDecimalRoundTrip(n);
    }
  }

  /** A canonical digit string is the rendering of its own value. */
  lemma {:induction false} NatToDecimalOfDigits(s: string)
    requires CanonicalDigits(s)
    ensures NatToDecimal(DigitsValue(s)) == s
    decreases |s|
  {
    if |s| > 1 {
      var s' := s[..|s| - 1];
      assert CanonicalDigits(s');
      DigitsValuePositive(s');
      NatToDecimalOfDigits(s');
      assert s == s' + [s[|s| - 1]];
    }
  }

  lemma {:induction false} DigitsValuePositive(s: string)
    requires CanonicalDigits(s) && s[0] != '0'
    ensures DigitsValue(s) > 0
    decreases |s|
  {
    if |s| > 1 {
      DigitsValuePositive(s[..|s| - 1]);
    }
  }

  /**
   * Exactly the canonical strings are renderings: each one reads back to an
   * integer whose rendering is the string again.
   */
  lemma CanonicalIsRendering(s: string)
    requires Canonical(s)
    ensures ParseInt(s).Some? && IntToDecimal(ParseInt(s).value) == s
  {
    if s[0] == '-' {
      NatToDecimalOfDigits(s[1..]);
      DigitsValuePositive(s[1..]);
      assert s == "-" + s[1..];
    } else {
      NatToDecimalOfDigits(s);
    }
  }

  /** Distinct ids render to distinct strings. */
  lemma IntToDecimalInjective(a: int, b: int)
    requires IntToDecimal(a) == IntToDecimal(b)
    ensures a == b
  {
    IntToDecimalRoundTrip(a);
    IntToDecimalRoundTrip(b);
  }

  lemma DecimalExample()
    ensures IntToDecimal(12345) == "12345"
  {
    assert NatToDecimal(1) == "1";
    assert NatToDecimal(12) == "12";
    assert NatToDecimal(123) == "123";
    assert NatToDecimal(1234) == "1234";
  }
}

=== FILE: label_scan.dfy ===
/**
 * Extraction of a labelled field from free alert text.
 *
 * The notifier looks for a line of the form `Label:<ws><value>` with a
 * multi-line regular-expression search for `^Label:\s(.+)$`, takes the first
 * match, and strips every trailing carriage return from the captured value.
 * This module is a hand-written scanner with exactly that behaviour:
 *
 *  - `^` holds at position 0 and just after every '\n';
 *  - the field must follow literally, then exactly one whitespace character
 *    (which may itself be '\n' or '\r');
 *  - `.+` is greedy and never crosses '\n', and `$` holds before '\n' and at
 *    the end of the text, so the capture is the whole rest of that line and
 *    must be non-empty;
 *  - the search tries positions from left to right and stops at the first match.
 *
 * `Captures` is the declarative reading of one match; `MatchAt`, `FindFrom`
 * and `Search` compute it and are proved to agree with it.
 */
module LabelScan {
  import opened Wrappers

  /** Python's `\s` on text: the characters for which `str.isspace()` holds. */
  predicate IsSpace(c: char) {
    var n := c as int;
    || 0x09 <= n <= 0x0D
    || 0x1C <= n <= 0x20
    || n == 0x85 || n == 0xA0 || n == 0x1680
    || 0x2000 <= n <= 0x200A
    || n == 0x2028 || n == 0x2029 || n == 0x202F || n == 0x205F || n == 0x3000
  }

  /** Where `^` holds in multi-line mode. */
  predicate IsLineStart(s: string, i: int) {
    i == 0 || (0 < i <= |s| && s[i - 1] == '\n')
  }

  predicate NoNewline(v: string) {
    forall m :: 0 <= m < |v| ==> v[m] != '\n'
  }

  /**
   * The pattern `^field\s(.+)$` matches at position `i` of `s` with capture
   * `v`: the declarative reading of one match.
   */
  ghost predicate Captures(s: string, field: string, i: nat, v: string) {
    var j := i + |field| + 1;
    && IsLineStart(s, i)
    && j + |v| <= |s|
    && s[i..i + |field|] == field
    && IsSpace(s[i + |field|])
    && |v| > 0
    && v == s[j..j + |v|]
    && NoNewline(v)
    && (j + |v| == |s| || s[j + |v|] == '\n')
  }

  /** A match at `i` with capture `v` such that no earlier position matches at all. */
  ghost predicate FirstCapture(s: string, field: string, i: nat, v: string) {
    && Captures(s, field, i, v)
    && forall p: nat, w: string :: p < i ==> !Captures(s, field, p, w)
  }

  /** The first '\n' at or after `j`, or the end of the text: where greedy `.+` stops. */
  function LineEnd(s: string, j: nat): (k: nat)
    requires j <= |s|
    ensures j <= k <= |s|
    ensures k == |s| || s[k] == '\n'
    ensures forall m :: j <= m < k ==> s[m] != '\n'
    decreases |s| - j
  {
    if j == |s| || s[j] == '\n' then j else LineEnd(s, j + 1)
  }

  /** The capture of the pattern anchored at position `i`, if it matches there. */
  function MatchAt(s: string, field: string, i: nat): (r: Option<string>)
    ensures r.Some? ==> Captures(s, field, i, r.value)
    ensures r.Some? ==> forall v :: Captures(s, field, i, v) ==> v == r.value
    ensures r.None? ==> forall v :: !Captures(s, field, i, v)
  {
    if IsLineStart(s, i) && i + |field| < |s| && s[i..i + |field|] == field && IsSpace(s[i + |field|]) then
      var j := i + |field| + 1;
      var k := LineEnd(s, j);
      if j < k then Some(s[j..k]) else None
    else
      None
  }

  datatype Hit = Hit(start: nat, capture: string)

  /** Tries positions `i`, `i + 1`, ... in order and stops at the first match. */
  function FindFrom(s: string, field: string, i: nat): (r: Option<Hit>)
    ensures r.Some? ==> i <= r.value.start <= |s|
    ensures r.Some? ==> MatchAt(s, field, r.value.start) == Some(r.value.capture)
    ensures r.Some? ==> forall p: nat :: i <= p < r.value.start ==> MatchAt(s, field, p).None?
    ensures r.None? ==> forall p: nat :: i <= p ==> MatchAt(s, field, p).None?
    decreases |s| + 1 - i
  {
    if i > |s| then None
    else match MatchAt(s, field, i)
      case Some(v) => Some(Hit(i, v))
      case None => FindFrom(s, field, i + 1)
  }

  /** What `FindFrom` finds, restated through `Captures`. */
  lemma FindFromCaptures(s: string, field: string, i: nat)
    ensures FindFrom(s, field, i).Some? ==>
      var h := FindFrom(s, field, i).value;
      Captures(s, field, h.start, h.capture) && forall p: nat, w: string :: i <= p < h.start ==> !Captures(s, field, p, w)
    ensures FindFrom(s, field, i).None? ==> forall p: nat, w: string :: i <= p ==> !Captures(s, field, p, w)
  {
    var r := FindFrom(s, field, i);
    if r.Some? {
      forall p: nat, w: string | i <= p < r.value.start
        ensures !Captures(s, field, p, w)
      {
        assert MatchAt(s, field, p).None?;
      }
    } else {
      forall p: nat, w: string | i <= p
        ensures !Captures(s, field, p, w)
      {
        assert MatchAt(s, field, p).None?;
      }
    }
  }

  /** The raw capture of the leftmost match of `^field\s(.+)$` in `s`. */
  function Search(s: string, field: string): (r: Option<string>)
    ensures r.Some? ==> exists i: nat :: FirstCapture(s, field, i, r.value)
    ensures r.None? ==> forall i: nat, v: string :: !Captures(s, field, i, v)
  {
    FindFromCaptures(s, field, 0);
    match FindFrom(s, field, 0)
    case Some(h) =>
      assert FirstCapture(s, field, h.start, h.capture);
      Some(h.capture)
    case None => None
  }

  /** `rstrip('\r')`: removes every carriage return at the end of `s`. */
  function StripTrailingCR(s: string): (r: string)
    ensures |r| <= |s| && r == s[..|r|]
    ensures |r| == 0 || r[|r| - 1] != '\r'
    ensures forall m :: |r| <= m < |s| ==> s[m] == '\r'
  {
    if |s| > 0 && s[|s| - 1] == '\r' then StripTrailingCR(s[..|s| - 1]) else s
  }

  /** The three properties of `StripTrailingCR` determine its result. */
  lemma StripTrailingCRUnique(s: string, t: string)
    requires |t| <= |s| && t == s[..|t|]
    requires |t| == 0 || t[|t| - 1] != '\r'
    requires forall m :: |t| <= m < |s| ==> s[m] == '\r'
    ensures t == StripTrailingCR(s)
  {
  }

  /** The value of the field `field`: leftmost capture with trailing '\r' removed. */
  function Extract(s: string, field: string): (r: Option<string>)
    ensures r.Some? ==> NoNewline(r.value)
    ensures r.Some? ==> |r.value| == 0 || r.value[|r.value| - 1] != '\r'
    ensures r.Some? ==> exists i: nat, v: string :: FirstCapture(s, field, i, v) && r.value == StripTrailingCR(v)
    ensures r.None? <==> forall i: nat, v: string :: !Captures(s, field, i, v)
  {
    match Search(s, field)
    case Some(v) =>
      var w := StripTrailingCR(v);
      assert forall m :: 0 <= m < |w| ==> w[m] == v[m];
      Some(w)
    case None => None
  }

  /** Text after a final '\n' does not change where the greedy `.+` stops. */
  lemma {:induction false} LineEndStable(s: string, t: string, j: nat)
    requires j < |s| && s[|s| - 1] == '\n'
    ensures LineEnd(s + t, j) == LineEnd(s, j)
    decreases |s| - j
  {
    if s[j] != '\n' {
      LineEndStable(s, t, j + 1);
    }
  }

  /** A match whose whitespace lies before the last '\n' of `s` is unaffected by appending `t`. */
  lemma MatchAtStable(s: string, t: string, field: string, p: nat)
    requires |s| > 0 && s[|s| - 1] == '\n'
    requires p + |field| + 1 < |s|
    ensures MatchAt(s + t, field, p) == MatchAt(s, field, p)
  {
    var st := s + t;
    assert st[p..p + |field|] == s[p..p + |field|];
    LineEndStable(s, t, p + |field| + 1);
    var j := p + |field| + 1;
    var k := LineEnd(s, j);
    assert st[j..k] == s[j..k];
  }

  /**
   * Only the leftmost match counts: once a complete line of `s` carries the
   * field, whatever text follows `s` is ignored.
   */
  lemma SearchIgnoresLaterText(s: string, t: string, field: string)
    requires |s| > 0 && s[|s| - 1] == '\n'
    requires Search(s, field).Some?
    ensures Search(s + t, field) == Search(s, field)
  {
    var st := s + t;
    var h := FindFrom(s, field, 0).value;
    var i := h.start;
    MatchAtStable(s, t, field, i);
    forall p: nat | p < i
      ensures MatchAt(st, field, p).None?
    {
      if p + |field| + 1 < |s| {
        MatchAtStable(s, t, field, p);
      }
    }
  }

  /** The first match is unique: at most one position and one capture qualify. */
  lemma FirstCaptureUnique(s: string, field: string, i: nat, v: string, i': nat, v': string)
    requires FirstCapture(s, field, i, v) && FirstCapture(s, field, i', v')
    ensures i == i' && v == v'
  {
    assert MatchAt(s, field, i).Some?;
  }

  /** Conversely to `Extract`'s contract: the first match determines the extracted value. */
  lemma ExtractOfFirstCapture(s: string, field: string, i: nat, v: string)
    requires FirstCapture(s, field, i, v)
    ensures Extract(s, field) == Some(StripTrailingCR(v))
  {
    var i', v' :| FirstCapture(s, field, i', v') && Extract(s, field).value == StripTrailingCR(v');
    FirstCaptureUnique(s, field, i, v, i', v');
  }

  /** `\s` also matches '\n': a label at the end of a line takes its value from the next line. */
  lemma NewlineAsSeparatorExample()
    ensures Extract("Trigger status:\nOK", "Trigger status:") == Some("OK")
  {
    var s := "Trigger status:\nOK";
    assert s[0..15] == "Trigger status:";
    assert s[16..18] == "OK";
    assert FirstCapture(s, "Trigger status:", 0, "OK");
    ExtractOfFirstCapture(s, "Trigger status:", 0, "OK");
  }

  /** Only the leftmost matching line counts; a later line with the same label is ignored. */
  lemma LeftmostLineExample()
    ensures Extract("Trigger status: PROBLEM\nTrigger status: OK", "Trigger status:") == Some("PROBLEM")
  {
    var s := "Trigger status: PROBLEM\nTrigger status: OK";
    FirstLineMatches(s);
    ExtractOfFirstCapture(s, "Trigger status:", 0, "PROBLEM");
  }

  lemma FirstLineMatches(s: string)
    requires s == "Trigger status: PROBLEM\nTrigger status: OK"
    ensures FirstCapture(s, "Trigger status:", 0, "PROBLEM")
  {
    assert s[0..15] == "Trigger status:" by {
      assert forall k :: 0 <= k < 15 ==> s[k] == "Trigger status:"[k];
    }
    assert s[16..23] == "PROBLEM" by {
      assert forall k :: 0 <= k < 7 ==> s[16 + k] == "PROBLEM"[k];
    }
  }

  /** A label followed by one space and then the end of the line does not match on that line. */
  lemma EmptyValueSkippedExample()
    ensures Extract("Trigger status: \nTrigger status: PROBLEM", "Trigger status:") == Some("PROBLEM")
  {
    var s := "Trigger status: \nTrigger status: PROBLEM";
    EmptyValueLineFails(s);
    SecondLineMatches(s);
    ExtractOfFirstCapture(s, "Trigger status:", 17, "PROBLEM");
  }

  lemma EmptyValueLineFails(s: string)
    requires s == "Trigger status: \nTrigger status: PROBLEM"
    ensures forall p: nat, w: string :: p < 17 ==> !Captures(s, "Trigger status:", p, w)
  {
    assert LineEnd(s, 16) == 16;
    assert MatchAt(s, "Trigger status:", 0) == None;
    forall p: nat, w: string | 0 < p < 17
      ensures !Captures(s, "Trigger status:", p, w)
    {
      assert !IsLineStart(s, p);
    }
  }

  lemma SecondLineMatches(s: string)
    requires s == "Trigger status: \nTrigger status: PROBLEM"
    ensures Captures(s, "Trigger status:", 17, "PROBLEM")
  {
    assert s[17..32] == "Trigger status:" by {
      assert forall k :: 0 <= k < 15 ==> s[17 + k] == "Trigger status:"[k];
    }
    assert s[33..40] == "PROBLEM" by {
      assert forall k :: 0 <= k < 7 ==> s[33 + k] == "PROBLEM"[k];
    }
  }
}

=== FILE: notifier.dfy ===
/**
 * The alert formatter of the Zabbix-to-Telegram notifier: it reads the
 * trigger status and severity out of the alert message, picks an emoji for
 * them, and builds the `sendMessage` payload `{chat_id, text}`.
 */
module Notifier {
  import opened Wrappers
  import LabelScan
  import Decimal

  const StatusLabel: string := "Trigger status:"
  const SeverityLabel: string := "Trigger severity:"

  /** The severity table. The glyphs are display strings; only their distinctness matters. */
  const EmojiMap: map<string, string> := map[
    "OK" := "\U{2705}",
    "Average" := "\U{2757}",
    "Information" := "\U{2139}",
    "Warning" := "\U{26A0}",
    "High" := "\U{274C}",
    "Disaster" := "\U{2620}\U{1F198}"
  ]

  /** The table has exactly six case-sensitive keys, each with its own non-empty glyph. */
  lemma EmojiMapShape()
    ensures EmojiMap.Keys == {"OK", "Average", "Information", "Warning", "High", "Disaster"}
    ensures forall k :: k in EmojiMap ==> |EmojiMap[k]| > 0
    ensures forall k, k' :: k in EmojiMap && k' in EmojiMap && k != k' ==> EmojiMap[k] != EmojiMap[k']
  {
  }

  /** A prefix the formatter may put before the subject: nothing, or one glyph and a space. */
  ghost predicate IsEmojiPrefix(p: string) {
    p == "" || exists k :: k in EmojiMap && p == EmojiMap[k] + " "
  }

  /** Which branch of the emoji selection the message takes. */
  datatype Classification =
    | StatusAbsent                      // no status line: warning "Status not found."
    | StatusOk                          // status value is exactly "OK"
    | KnownSeverity(key: string)        // severity value is a table key
    | SeverityAbsent                    // status not OK, no severity line: warning "Severity not found."
    | UnknownSeverity(value: string)    // severity value not in the table: warning "Unknown severity"
  {
    /** The branches in which the notifier logs a warning. */
    predicate LogsWarning() {
      StatusAbsent? || SeverityAbsent? || UnknownSeverity?
    }

    /** A classification the selection step can produce. */
    predicate Valid() {
      (KnownSeverity? ==> key in EmojiMap) && (UnknownSeverity? ==> value !in EmojiMap)
    }
  }

  /** The emoji-selection decision: status first, severity only for a non-OK status. */
  function Classify(message: string): (c: Classification)
    ensures c.Valid()
    ensures c.StatusAbsent? <==> LabelScan.Extract(message, StatusLabel).None?
    ensures c.StatusOk? <==> LabelScan.Extract(message, StatusLabel) == Some("OK")
  {
    match LabelScan.Extract(message, StatusLabel)
    case None => StatusAbsent
    case Some(status) =>
      if status == "OK" then StatusOk
      else match LabelScan.Extract(message, SeverityLabel)
        case None => SeverityAbsent
        case Some(severity) =>
          if severity in EmojiMap then KnownSeverity(severity) else UnknownSeverity(severity)
  }

  /** The emoji prefix a classification selects. */
  function PrefixOf(c: Classification): (p: string)
    requires c.Valid()
    ensures IsEmojiPrefix(p)
    ensures p == "" <==> c.LogsWarning()
  {
    match c
    case StatusOk =>
      assert EmojiMap["OK"] + " " != "";
      EmojiMap["OK"] + " "
    case KnownSeverity(k) =>
      assert EmojiMap[k] + " " != "";
      EmojiMap[k] + " "
    case _ => ""
  }

  function EmojiPrefix(message: string): (p: string)
    ensures IsEmojiPrefix(p)
  {
    PrefixOf(Classify(message))
  }

  /** The JSON body of the `sendMessage` request. */
  datatype Payload = Payload(chatId: string, text: string)

  /** Builds the payload for recipient `telegramId` from the alert's subject and message. */
  function Format(telegramId: int, subject: string, message: string): (r: Payload)
    ensures r.chatId == Decimal.IntToDecimal(telegramId)
    ensures Decimal.Canonical(r.chatId) && Decimal.ParseInt(r.chatId) == Some(telegramId)
    ensures r.text == EmojiPrefix(message) + subject + "\n\n" + message
    ensures exists p :: IsEmojiPrefix(p) && r.text == p + subject + "\n\n" + message
    ensures |r.text| >= |subject| + 2 + |message| && r.text[|r.text| - |message|..] == message
  {
    Decimal.IntToDecimalRoundTrip(telegramId);
    var prefix := EmojiPrefix(message);
    var text := prefix + subject + "\n\n" + message;
    assert text[|text| - |message|..] == message;
    Payload(Decimal.IntToDecimal(telegramId), text)
  }

  /** No status line anywhere: no emoji, a warning, and the severity table is never consulted. */
  lemma StatusAbsentNoPrefix(message: string)
    requires forall i: nat, v: string :: !LabelScan.Captures(message, StatusLabel, i, v)
    ensures Classify(message) == StatusAbsent
    ensures EmojiPrefix(message) == ""
  {
  }

  /**
   * When the status alone decides (absent, or "OK"), the severity line plays no
   * part: two messages with the same status value get the same prefix,
   * whatever their severity lines say.
   */
  lemma StatusDecidesAlone(m1: string, m2: string)
    requires LabelScan.Extract(m1, StatusLabel) == LabelScan.Extract(m2, StatusLabel)
    requires LabelScan.Extract(m1, StatusLabel).None? || LabelScan.Extract(m1, StatusLabel) == Some("OK")
    ensures EmojiPrefix(m1) == EmojiPrefix(m2)
  {
  }

  /** The first status line reads "OK" (after stripping '\r'): the OK glyph, whatever the severity line says. */
  lemma StatusOkPrefix(message: string, i: nat, v: string)
    requires LabelScan.FirstCapture(message, StatusLabel, i, v)
    requires LabelScan.StripTrailingCR(v) == "OK"
    ensures Classify(message) == StatusOk
    ensures EmojiPrefix(message) == EmojiMap["OK"] + " "
  {
    LabelScan.ExtractOfFirstCapture(message, StatusLabel, i, v);
  }

  /** Status not OK and the first severity value is a table key: that key's glyph. */
  lemma KnownSeverityPrefix(message: string, i: nat, v: string, j: nat, w: string)
    requires LabelScan.FirstCapture(message, StatusLabel, i, v)
    requires LabelScan.StripTrailingCR(v) != "OK"
    requires LabelScan.FirstCapture(message, SeverityLabel, j, w)
    requires LabelScan.StripTrailingCR(w) in EmojiMap
    ensures Classify(message) == KnownSeverity(LabelScan.StripTrailingCR(w))
    ensures EmojiPrefix(message) == EmojiMap[LabelScan.StripTrailingCR(w)] + " "
  {
    LabelScan.ExtractOfFirstCapture(message, StatusLabel, i, v);
    LabelScan.ExtractOfFirstCapture(message, SeverityLabel, j, w);
  }

  /** Status not OK and no severity line: no emoji, and a warning. */
  lemma SeverityAbsentNoPrefix(message: string, i: nat, v: string)
    requires LabelScan.FirstCapture(message, StatusLabel, i, v)
    requires LabelScan.StripTrailingCR(v) != "OK"
    requires forall j: nat, w: string :: !LabelScan.Captures(message, SeverityLabel, j, w)
    ensures Classify(message) == SeverityAbsent
    ensures EmojiPrefix(message) == ""
  {
    LabelScan.ExtractOfFirstCapture(message, StatusLabel, i, v);
  }

  /** Status not OK and the first severity value is not a table key: no emoji, and a warning. */
  lemma UnknownSeverityNoPrefix(message: string, i: nat, v: string, j: nat, w: string)
    requires LabelScan.FirstCapture(message, StatusLabel, i, v)
    requires LabelScan.StripTrailingCR(v) != "OK"
    requires LabelScan.FirstCapture(message, SeverityLabel, j, w)
    requires LabelScan.StripTrailingCR(w) !in EmojiMap
    ensures Classify(message) == UnknownSeverity(LabelScan.StripTrailingCR(w))
    ensures EmojiPrefix(message) == ""
  {
    LabelScan.ExtractOfFirstCapture(message, StatusLabel, i, v);
    LabelScan.ExtractOfFirstCapture(message, SeverityLabel, j, w);
  }

  /** An OK alert whose status line ends in a Windows line ending: the payload for id 12345 and subject `Test`. */
  lemma OkAlertExample()
    ensures Format(12345, "Test", "Trigger status: OK\r\nAll good").chatId == "12345"
    ensures Format(12345, "Test", "Trigger status: OK\r\nAll good").text
         == EmojiMap["OK"] + " " + "Test" + "\n\n" + "Trigger status: OK\r\nAll good"
  {
    var m := "Trigger status: OK\r\nAll good";
    OkAlertStatusLine();
    StatusOkPrefix(m, 0, "OK\r");
    Decimal.DecimalExample();
    var f := Format(12345, "Test", m);
    assert f.chatId == "12345";
  }

  /** The status line of that OK alert and its stripped value. */
  lemma OkAlertStatusLine()
    ensures LabelScan.FirstCapture("Trigger status: OK\r\nAll good", StatusLabel, 0, "OK\r")
    ensures LabelScan.StripTrailingCR("OK\r") == "OK"
  {
    var m := "Trigger status: OK\r\nAll good";
    assert m[0..|StatusLabel|] == StatusLabel;
    assert m[|StatusLabel| + 1..|StatusLabel| + 4] == "OK\r";
    assert "OK\r"[..2] == "OK";
  }
}

=== FILE: wrappers.dfy ===
/** An optional value: the model's stand-in for a regular-expression search that may find nothing. */
module Wrappers {

  datatype Option<+T> = None | Some(value: T)

}
